=== FILE: README.md ===
# People AI bot: message dispatcher and acknowledge-then-replace handlers

This project models the Slack `message` listener of the People AI bot
(`app.py`) and the three handlers it can call:

- a question asked inside a thread with a mention of the bot;
- a question asked as a top-level message;
- a book request.

Every handler follows the same publish pattern. It posts one placeholder
reply into the thread, does its work, and then edits that same reply once
into the final text.

The model is purely functional:

- `Routing.Classify` picks the route of an event: ignore, book request, thread reply or new message.
- Each handler is a function from the event and an `Effects.Env` to a trace of outbound effects:
  `Post`, `Update` (the `chat_update` edit) and `AppendRow` (the sheet write).
- `Env` holds the startup state: whether the Gemini model and the Sheets client exist.
- `Env` also holds the answer of every external call made for one event: the post, generation,
  book extraction, the profile lookup, the sheet open, the row append, the placeholder choice and the clock.

Modules:

| file | module | contents |
|---|---|---|
| py.dfy | `Py` | `str`/`None` values, truthiness, f-string rendering, `dict.get` |
| text.dfy | `Text` | `in`, `str.strip()`, `re.sub` of a literal token, with `Split`/`Join` as the reference definition |
| routing.dfy | `Routing` | the event, the mention token, `Classify` |
| effects.dfy | `Effects` | effects, oracle results, `Env`, the acknowledge-then-replace predicate |
| answers.dfy | `Answers` | `generate_answer`, query cleaning, the thread-reply and new-message handlers |
| books.dfy | `Books` | book-info acceptance, requester name, sheet row, sheet write, reply text, the book handler |
| dispatch.dfy | `Dispatch` | the listener and the properties that hold of every event |

Python details that the model keeps:

- `if thread_ts:` is a truthiness test, so an empty `thread_ts` counts as a top-level message.
- The self-check runs only when the bot id is truthy. A missing bot id makes the mention token `<@None>`.
- `dict.get(key, default)` uses the default only when the key is absent. An extracted `"isbn": ""` is written to the sheet as an empty cell, not as `정보 없음`.
- `f"{None}"` prints `None`.
- `re.sub` removes matches left to right, without overlap. Removing one match can make a new one, so the cleaned query can still contain the mention (`Text.RemoveAllCanLeaveToken`).
- If `say` raises, the exception leaves the handler. The trace then ends with the placeholder post.

Routing and acceptance as `app.py` states them:

- Every top-level message that is not a book request is answered unless it is blank, whether or not it mentions the bot.
- A thread message is answered only when it contains the literal mention token.
- The book-request keyword is checked only outside threads.
- The comment at `app.py:128` says a request missing either the title or the author is invalid.
  The code rejects it only when both are missing. The model follows the code (`Books.ExtractBookInfo`).

## Model

| member | source | states |
|---|---|---|
| Py.Render | app.py:167 | A string prints as itself; a missing value prints as `None`. |
| Py.Get | app.py:143-144 | The default is returned only when the key is absent; a present null or empty value is returned as it is. |
| Routing.Classify | app.py:184-201 | Each route as a condition on the event, independent of rule order. Ignore exactly for subtype events, the bot's own messages, and thread messages without the literal mention. Book request exactly for a top-level message containing `도서신청` or `도서 신청`. Thread reply exactly for a mentioned thread message. New message for every other top-level message. |
| Routing.Mention | app.py:198 | The mention token is `<@`, the bot id, then `>`. A missing bot id gives exactly `<@None>`. |
| Text.Strip | app.py:178 | `str.strip()` gives a result with no whitespace at either end. The result is a slice of the input with only whitespace around it. It is empty exactly when the input is all whitespace. |
| Text.StripUnique | app.py:178 | Any non-empty trimmed string that the input pads with whitespace is exactly the stripped text, so the result of `Strip` is fully determined. |
| Text.StripIdempotent | app.py:171 | Stripping twice is the same as stripping once. |
| Text.RemoveAll | app.py:171 | Removing the token never lengthens the text. |
| Text.RemoveAllWithoutToken | app.py:171 | Text that does not contain the token is left unchanged. |
| Text.JoinSplit | app.py:171 | Splitting the text at the token and joining the pieces with the token gives the text back. |
| Text.RemoveAllIsConcatOfSplit | app.py:171 | Removing every match equals concatenating the split pieces. |
| Text.SplitFirstPieceIsLeftmost | app.py:171 | The first split piece ends at the leftmost match of the token: no match starts inside it, and a match starts right after it when the text has one. Without a match the whole text is the only piece. So the first cut is at the leftmost match, as in `re.sub`, even for a token that overlaps itself. Later cuts are not covered by this lemma. |
| Text.SplitPiecesFree | app.py:171 | No split piece contains the token. |
| Text.RemoveAllCanLeaveToken | app.py:171 | `<@<@U1>U1>` cleans to `<@U1>`: a single left-to-right pass can leave a mention behind. |
| Answers.Placeholder | app.py:71 | The placeholder is one of the two "searching" texts. |
| Answers.GenerateAnswer | app.py:90-98 | Always yields a string: the fixed notice when there is no model, the fixed apology when the call fails, and exactly the model's text when it succeeds. |
| Answers.ThreadQuery | app.py:171 | The thread query is trimmed and no longer than the text. Without a mention it is the stripped text. |
| Answers.ThreadQueryFromPieces | app.py:171 | The text is mention-free pieces joined by mentions. The thread query is those pieces concatenated and stripped. |
| Answers.LeadingMentionIsDropped | app.py:171 | For `<@bot> question`, where the question has no further mention, the query is the stripped question. |
| Answers.MessageQuery | app.py:178 | The new-message query is trimmed. It is empty exactly when the text is blank. |
| Answers.AckThenAnswer | app.py:173-175 | The placeholder is the first and only post. When it was posted, the trace is exactly that post plus one edit of the same message, in the same channel, carrying the answer. |
| Answers.HandleThreadReply | app.py:170-175 | No effects exactly when the cleaned query is empty. Otherwise acknowledge-then-answer in the event's thread. |
| Answers.HandleNewMessage | app.py:177-182 | No effects exactly when the text is blank. Otherwise acknowledge-then-answer in a thread under the message. |
| Books.ExtractBookInfo | app.py:103-135 | Info is accepted exactly when there is a model, a parsed object, and a non-empty title or author. Accepted info is the parsed object, and it is non-empty. |
| Books.RequesterName | app.py:161-164 | The requester is the profile's `real_name`, else the user id. A failed lookup gives `알수없음`. |
| Books.SheetRow | app.py:142-145 | Six cells: title, author, ISBN, URL, requester, time. A missing ISBN or URL key defaults to `정보 없음` / `URL 없음`. A present key is copied as it is. |
| Books.AddBookToSheet | app.py:138-148 | An error is returned exactly on failure. Without a client there is no write and a fixed error. When the sheet cannot be opened there is no write and the exception text is the error. Otherwise exactly one row write, which succeeds as the append does, with the append's exception text as the error. |
| Books.ReplyText | app.py:167 | The reply opens with the confirmation exactly when the row was written. On failure the reply carries the error text. |
| Books.HandleBookRequest | app.py:150-168 | Acknowledge-then-replace under the request message. No usable book gives exactly post plus warning edit. Otherwise the trace is exactly the post, the sheet writes, then one edit carrying the reply for the sheet outcome: three effects when the sheet was opened, two otherwise. The edit confirms exactly when the append succeeded. |
| Dispatch.HandleMessageEvent | app.py:184-203 | Ignored events have no effects. Every other event either has no effects or follows acknowledge-then-replace: one post, then at most one edit of that post. |
| Dispatch.SelfAndSystemEventsAreSilent | app.py:188 | Subtype events and the bot's own messages produce no effects, whatever the services answer. |
| Dispatch.ThreadMessagesNeedMention | app.py:197-199 | A thread message without the literal mention produces nothing. A thread message that does produce effects was answered into its thread with a non-empty query. |
| Dispatch.BookRequestsBypassGeneration | app.py:193-195 | A top-level book request never reaches the generator: the effects are the same for every generator. |
| Dispatch.TopLevelMessagesAreAnswered | app.py:197-201 | A top-level message that is not a book request produces effects exactly when it is not blank. |
| Dispatch.QuestionsAreAnsweredInTwoSteps | app.py:170-182 | A posted question is exactly a placeholder post in the right thread plus one edit of that message. With no model the edit says the fixed notice, with a failed call the fixed apology, and otherwise the model's text. |
| Dispatch.BookRequestOutcome | app.py:155-168 | A posted book request ends with one edit of the placeholder. It is the warning exactly when no usable book was found. It is a confirmation exactly when a book was found, the sheet was opened and the append of its row succeeded. |
| Dispatch.AcceptedBookRowNamesTheBook | app.py:129-145 | The row of an accepted book has a non-empty title or author cell. |

## Left out

- Environment-variable checks, process exit and logging setup (app.py:22-37): startup plumbing.
- The Slack app, the Flask routes and the health check (app.py:54-57, app.py:205-215): HTTP and framework wiring.
- The Gemini client, its configuration and the prompt text (app.py:73-78, app.py:93-95, app.py:107-122): the model is an oracle `Env.generate` from query to text or failure, plus the `Env.modelReady` flag.
- The JSON regex and `json.loads` in book extraction (app.py:123-127): library parsing, part of the oracle `Env.extract`.
  JSON values are modelled as strings or null. Numbers or lists in the title or author field are not modelled.
- The Google Sheets client, `open_by_key` and `append_row` (app.py:40-52, app.py:141, app.py:146): network I/O. The model keeps the `Env.sheetReady` flag, the `Env.openSheet` outcome, the row, and the `Env.append` outcome.
- `users_info` (app.py:162): network I/O, the oracle `Env.lookup`.
- `random.choice` is an arbitrary index `Env.pick`, taken modulo 2. `datetime.now()` is the formatted string `Env.now`.
- Loading the knowledge and help files (app.py:69-70, app.py:80-88): file I/O. `app.py` stores the results and never reads them again.
- The listener's catch-all `except` (app.py:202-203) is modelled only for a failing `say`.
  A failing `chat_update` is the last call either way, so the trace is the same.
  Other exceptions are not modelled, for example a `text` field that is JSON null.
- Routing.Mention: the bot id goes into the `re.sub` pattern unescaped. The model treats it as literal text. This is exact for Slack's alphanumeric user ids, but not for an id with regex metacharacters.

=== FILE: answers.dfy ===
/**
 The two question handlers: a mention inside a thread, and a top-level
 message. Both clean the text into a query, acknowledge with a placeholder
 reply in the thread, ask the model, and edit the placeholder into the answer.
 */
module Answers {
  import opened Py
  import opened Text
  import opened Effects
  import opened Routing

  /** The two "searching" placeholders `random.choice` picks from. */
  const Searching: seq<string> := ["잠시만요, 관련 정보를 찾고 있어요... 🕵️‍♀️", "생각하는 중... 🤔"]

  const ModelNotReady: string := "AI 모델이 준비되지 않았습니다."
  const GenerationFallback: string := "음... 답변을 생성하는 도중 문제가 발생했어요."

  function Placeholder(pick: nat): (r: string)
    ensures r in Searching
  {
    Searching[pick % |Searching|]
  }

  /** `generate_answer`: never fails. Without a model it answers with a fixed
      notice and does not call the service; a failed call becomes a fixed
      apology; otherwise the service's text is the answer. */
  function GenerateAnswer(modelReady: bool, generate: string -> GenResult, query: string): (r: string)
    ensures !modelReady ==> r == ModelNotReady
    ensures r == ModelNotReady || r == GenerationFallback ||
            (modelReady && generate(query) == Generated(r))
    ensures modelReady && generate(query).GenFailed? ==> r == GenerationFallback
    ensures modelReady && generate(query).Generated? ==> r == generate(query).text
  {
    if !modelReady then ModelNotReady
    else match generate(query)
      case Generated(text) => text
      case GenFailed => GenerationFallback
  }

  /** The query of a thread reply: every mention of the bot removed, then
      whitespace stripped. */
  function ThreadQuery(botId: BotId, e: Event): (q: string)
    ensures |q| <= |e.Body()|
    ensures Trimmed(q)
    ensures !MentionsBot(botId, e) ==> q == Strip(e.Body())
  {
    assert !MentionsBot(botId, e) ==> RemoveAll(e.Body(), Mention(botId)) == e.Body() by {
      if !MentionsBot(botId, e) {
        RemoveAllWithoutToken(e.Body(), Mention(botId));
      }
    }
    Strip(RemoveAll(e.Body(), Mention(botId)))
  }

  /** The query of a top-level message: its text, stripped. A mention of the
      bot stays in the query. */
  function MessageQuery(e: Event): (q: string)
    ensures |q| <= |e.Body()|
    ensures Trimmed(q)
    ensures q == [] <==> AllSpace(e.Body())
  {
    Strip(e.Body())
  }

  /** The thread query, stated through the split of the text at the mention:
      the text is the mention-free pieces joined by mentions, and the query is
      those pieces run together and stripped. */
  lemma ThreadQueryFromPieces(botId: BotId, e: Event)
    ensures var pieces := Split(e.Body(), Mention(botId));
            && Join(Mention(botId), pieces) == e.Body()
            && (forall k :: 0 <= k < |pieces| ==> !Contains(pieces[k], Mention(botId)))
            && ThreadQuery(botId, e) == Strip(Concat(pieces))
  {
    JoinSplit(e.Body(), Mention(botId));
    SplitPiecesFree(e.Body(), Mention(botId));
    RemoveAllIsConcatOfSplit(e.Body(), Mention(botId));
  }

  /** The usual thread reply, `<@bot> question`, is asked as the stripped
      question, provided the question does not mention the bot again. */
  lemma LeadingMentionIsDropped(botId: BotId, e: Event, question: string)
    requires e.text == Some(Mention(botId) + question)
    requires !Contains(question, Mention(botId))
    ensures ThreadQuery(botId, e) == Strip(question)
  {
    var m := Mention(botId);
    assert m <= m + question;
    assert (m + question)[|m|..] == question;
    RemoveAllWithoutToken(question, m);
    assert RemoveAll(m + question, m) == question;
  }

  /** Acknowledge, answer, replace: post a placeholder into thread `target`,
      then edit that message into the answer to `query`. If the post throws,
      the handler stops there. */
  function AckThenAnswer(env: Env, channel: Option<string>, target: Option<string>, query: string): (t: seq<Effect>)
    ensures AckThenReplace(t, env.post)
    ensures t[0] == Post(channel, target, Placeholder(env.pick))
    ensures env.post.Posted? ==>
      t == [t[0], Update(channel, env.post.handle, GenerateAnswer(env.modelReady, env.generate, query))]
  {
    var ack := Post(channel, target, Placeholder(env.pick));
    match env.post
    case PostFailed => [ack]
    case Posted(handle) =>
      var done := Update(channel, handle, GenerateAnswer(env.modelReady, env.generate, query));
      assert [ack, done][1..] == [done] && [done][1..] == [];
      assert CountPosts([done]) == 0 && CountUpdates([done]) == 1;
      assert CountPosts([ack, done]) == 1 && CountUpdates([ack, done]) == 1;
      [ack, done]
  }

  /** `handle_thread_reply`: nothing is posted for an empty query; otherwise
      the answer goes into the thread the message was posted in. */
  function HandleThreadReply(botId: BotId, env: Env, e: Event): (t: seq<Effect>)
    ensures t == [] <==> ThreadQuery(botId, e) == []
    ensures t != [] ==> t == AckThenAnswer(env, e.channel, e.threadTs, ThreadQuery(botId, e))
  {
    var query := ThreadQuery(botId, e);
    if query == [] then [] else AckThenAnswer(env, e.channel, e.threadTs, query)
  }

  /** `handle_new_message`: nothing is posted for a blank message; otherwise
      the answer starts a thread under the message itself. */
  function HandleNewMessage(env: Env, e: Event): (t: seq<Effect>)
    ensures t == [] <==> AllSpace(e.Body())
    ensures t != [] ==> t == AckThenAnswer(env, e.channel, e.ts, MessageQuery(e))
  {
    var query := MessageQuery(e);
    if query == [] then [] else AckThenAnswer(env, e.channel, e.ts, query)
  }
}

=== FILE: books.dfy ===
/**
 The book-request workflow: acknowledge the request, have the model pull the
 title, author and ISBN out of the message, record one row in the request
 sheet, and edit the acknowledgement into the outcome.
 */
module Books {
  import opened Py
  import opened Effects
  import opened Routing

  /** Every reply of the workflow opens with a check mark or a warning sign. */
  const CheckMark: string := "✅ "
  const WarningSign: string := "⚠️ "

  const BookReceived: string := CheckMark + "도서 신청을 접수했습니다. 입력된 정보를 분석 중입니다..."
  const BookNotFound: string := WarningSign + "메시지에서 책 제목, 저자 정보를 찾을 수 없습니다. 다시 한번 확인해주세요."
  const NoSheetClient: string := "구글 시트 클라이언트 초기화 실패"
  const UnknownUser: string := "알수없음"
  const NoIsbn: string := "정보 없음"
  const NoUrl: string := "URL 없음"
  const NotAvailable: string := "N/A"
  /** The fixed opening of the two replies that end a recorded request. */
  const Recorded: string := CheckMark + "신청이 완료되었습니다.\n\n> *제목:* "
  const SheetProblem: string := WarningSign + "구글 시트에 기록 중 문제가 발생했습니다. (오류: "

  /** `info.get(key)` is truthy: the field is present and a non-empty string. */
  predicate HasText(info: Dict, key: string)
  {
    Truthy(Get(info, key, None))
  }

  /** `extract_book_info_from_text`, after the model call and the JSON
      parsing: nothing without a model or without a parsed object, and an
      object is kept only if its title or its author is non-empty. */
  function ExtractBookInfo(modelReady: bool, parsed: Option<Dict>): (r: Option<Dict>)
    ensures r.Some? <==>
      modelReady && parsed.Some? && (HasText(parsed.value, "title") || HasText(parsed.value, "author"))
    ensures r.Some? ==> r == parsed && |r.value| > 0
  {
    if !modelReady then None
    else match parsed
      case None => None
      case Some(info) =>
        if !HasText(info, "title") && !HasText(info, "author") then None
        else
          assert |info.Keys| > 0 by {
            assert "title" in info || "author" in info;
          }
          Some(info)
  }

  /** The name recorded for the requester: the profile's `real_name`, the
      user id when the profile has none, a fixed placeholder when the lookup
      fails. */
  function RequesterName(lookup: LookupResult, user: Option<string>): (name: Option<string>)
    ensures lookup.LookupFailed? ==> name == Some(UnknownUser)
    ensures lookup.Profile? && "real_name" !in lookup.fields ==> name == user
    ensures lookup.Profile? && "real_name" in lookup.fields ==> name == lookup.fields["real_name"]
  {
    match lookup
    case LookupFailed => Some(UnknownUser)
    case Profile(fields) => Get(fields, "real_name", user)
  }

  /** The sheet row: title, author, ISBN, URL, requester, time. Only a
      missing ISBN or URL key gets a default; a key that is present is copied
      as it is, empty or null. */
  function SheetRow(info: Dict, name: Option<string>, now: string): (row: Row)
    ensures |row| == 6
    ensures ("title" in info ==> row[0] == info["title"]) && ("title" !in info ==> row[0].None?)
    ensures ("author" in info ==> row[1] == info["author"]) && ("author" !in info ==> row[1].None?)
    ensures ("isbn" in info ==> row[2] == info["isbn"]) && ("isbn" !in info ==> row[2] == Some(NoIsbn))
    ensures ("url" in info ==> row[3] == info["url"]) && ("url" !in info ==> row[3] == Some(NoUrl))
    ensures row[4] == name && row[5] == Some(now)
  {
    [ Get(info, "title", None), Get(info, "author", None), Get(info, "isbn", Some(NoIsbn)),
      Get(info, "url", Some(NoUrl)), name, Some(now) ]
  }

  /** The result of `add_book_to_sheet`: the writes it made, whether it
      succeeded, and the error text it returned. */
  datatype SheetOutcome = SheetOutcome(effects: seq<Effect>, success: bool, error: Option<string>)

  /** `add_book_to_sheet`: an error exactly when it did not succeed; no write
      at all without a client or when the sheet cannot be opened; otherwise
      one row written, and the outcome is the append's. */
  function AddBookToSheet(env: Env, info: Dict, name: Option<string>): (o: SheetOutcome)
    ensures o.success <==> o.error.None?
    ensures !env.sheetReady ==> o == SheetOutcome([], false, Some(NoSheetClient))
    ensures env.sheetReady && env.openSheet.OpenFailed? ==>
      o == SheetOutcome([], false, Some(env.openSheet.message))
    ensures o.effects != [] <==> env.sheetReady && env.openSheet.Opened?
    ensures o.effects != [] ==>
      && o.effects == [AppendRow(SheetRow(info, name, env.now))]
      && (o.success <==> env.append(SheetRow(info, name, env.now)) == Appended)
      && (!o.success ==> o.error == Some(env.append(SheetRow(info, name, env.now)).message))
  {
    if !env.sheetReady then SheetOutcome([], false, Some(NoSheetClient))
    else match env.openSheet
      case OpenFailed(message) => SheetOutcome([], false, Some(message))
      case Opened =>
        var row := SheetRow(info, name, env.now);
        match env.append(row)
        case Appended => SheetOutcome([AppendRow(row)], true, None)
        case AppendFailed(message) => SheetOutcome([AppendRow(row)], false, Some(message))
  }

  /** The final text of a request that got past extraction. It opens with
      the confirmation exactly when the row was written, and names the book
      and the requester in that case; otherwise it carries the error. */
  function ReplyText(info: Dict, name: Option<string>, o: SheetOutcome): (r: string)
    requires o.success <==> o.error.None?
    ensures Recorded <= r <==> o.success
    ensures o.success ==> r == Recorded + Summary(info, name)
    ensures !o.success ==> r == SheetProblem + o.error.value + ")"
  {
    if o.success then
      var r := Recorded + Summary(info, name);
      assert r[..|Recorded|] == Recorded;
      r
    else
      var r := SheetProblem + (o.error.value + ")");
      assert r[0] == SheetProblem[0];
      assert SheetProblem[0] == WarningSign[0] && Recorded[0] == CheckMark[0];
      r
  }

  /** The title, author and requester lines of a confirmation; a missing
      title or author key shows as "N/A", a null one as "None". */
  function Summary(info: Dict, name: Option<string>): string
  {
    Render(Get(info, "title", Some(NotAvailable))) + "\n> *저자:* " +
    Render(Get(info, "author", Some(NotAvailable))) + "\n> *신청자:* " + Render(name)
  }

  /** `handle_book_request`. The acknowledgement goes into a new thread under
      the request; it is edited exactly once, into a warning when no usable
      book was found and into the sheet outcome otherwise. */
  function HandleBookRequest(env: Env, e: Event): (t: seq<Effect>)
    ensures AckThenReplace(t, env.post)
    ensures t[0] == Post(e.channel, e.ts, BookReceived)
    ensures env.post.Posted? ==> t[|t| - 1].channel == e.channel
    ensures env.post.Posted? && ExtractBookInfo(env.modelReady, env.extract(e.Body())).None? ==>
      t == [t[0], Update(e.channel, env.post.handle, BookNotFound)]
    ensures env.post.Posted? && ExtractBookInfo(env.modelReady, env.extract(e.Body())).Some? ==>
      var info := env.extract(e.Body()).value;
      var name := RequesterName(env.lookup(e.user), e.user);
      var o := AddBookToSheet(env, info, name);
      && t == [t[0]] + o.effects + [Update(e.channel, env.post.handle, ReplyText(info, name, o))]
      && |t| == (if env.sheetReady && env.openSheet.Opened? then 3 else 2)
      && (Recorded <= t[|t| - 1].text <==>
            env.sheetReady && env.openSheet.Opened? && env.append(SheetRow(info, name, env.now)) == Appended)
  {
    var ack := Post(e.channel, e.ts, BookReceived);
    match env.post
    case PostFailed => [ack]
    case Posted(handle) =>
      match ExtractBookInfo(env.modelReady, env.extract(e.Body()))
      case None =>
        var done := Update(e.channel, handle, BookNotFound);
        assert [ack, done][1..] == [done] && [done][1..] == [];
        assert CountPosts([done]) == 0 && CountUpdates([done]) == 1;
        assert CountPosts([ack, done]) == 1 && CountUpdates([ack, done]) == 1;
        [ack, done]
      case Some(info) =>
        var name := RequesterName(env.lookup(e.user), e.user);
        var o := AddBookToSheet(env, info, name);
        var done := Update(e.channel, handle, ReplyText(info, name, o));
        var t := [ack] + o.effects + [done];
        assert CountPosts(o.effects) == 0 && CountUpdates(o.effects) == 0 by {
          if o.effects != [] {
            assert o.effects[1..] == [];
          }
        }
        assert CountPosts([ack]) == 1 && CountUpdates([ack]) == 0 by {
          assert [ack][1..] == [];
        }
        assert CountPosts([done]) == 0 && CountUpdates([done]) == 1 by {
          assert [done][1..] == [];
        }
        CountsOfConcat([ack], o.effects);
        CountsOfConcat([ack] + o.effects, [done]);
        t
  }
}

=== FILE: dispatch.dfy ===
/**
 `handle_all_message_events`: route the event, then run the chosen handler.
 The lemmas here state what holds of every event, whatever the external
 services answer.
 */
module Dispatch {
  import opened Py
  import opened Text
  import opened Effects
  import opened Routing
  import opened Answers
  import opened Books

  /** Every Slack `message` event passes through here. */
  function HandleMessageEvent(botId: BotId, env: Env, e: Event): (t: seq<Effect>)
    ensures Classify(botId, e) == Ignore ==> t == []
    ensures t == [] || AckThenReplace(t, env.post)
  {
    match Classify(botId, e)
    case Ignore => []
    case BookRequest => HandleBookRequest(env, e)
    case ThreadReply => HandleThreadReply(botId, env, e)
    case NewMessage => HandleNewMessage(env, e)
  }

  /** System events and the bot's own messages cause no call at all. */
  lemma SelfAndSystemEventsAreSilent(botId: BotId, env: Env, e: Event)
    requires e.hasSubtype || (Truthy(botId) && e.user == botId)
    ensures HandleMessageEvent(botId, env, e) == []
  {
  }

  /** Inside a thread, the bot speaks only when mentioned by its literal
      `<@id>` token, and then answers in that thread. */
  lemma ThreadMessagesNeedMention(botId: BotId, env: Env, e: Event)
    requires !FromSelfOrSystem(botId, e) && e.InThread()
    ensures !Contains(e.Body(), Mention(botId)) ==> HandleMessageEvent(botId, env, e) == []
    ensures HandleMessageEvent(botId, env, e) != [] ==>
      && HandleMessageEvent(botId, env, e)[0] == Post(e.channel, e.threadTs, Placeholder(env.pick))
      && ThreadQuery(botId, e) != []
  {
  }

  /** A top-level message asking for a book is never answered by the model:
      whatever the generator would say, the effects are the same. */
  lemma BookRequestsBypassGeneration(botId: BotId, env: Env, e: Event, other: string -> GenResult)
    requires !FromSelfOrSystem(botId, e) && !e.InThread() && AsksForBook(e.Body())
    ensures HandleMessageEvent(botId, env, e) == HandleMessageEvent(botId, env.(generate := other), e)
    ensures HandleMessageEvent(botId, env, e)[0] == Post(e.channel, e.ts, BookReceived)
  {
  }

  /** Every other top-level message is a question, answered in a thread under
      it, unless it is blank. */
  lemma TopLevelMessagesAreAnswered(botId: BotId, env: Env, e: Event)
    requires !FromSelfOrSystem(botId, e) && !e.InThread() && !AsksForBook(e.Body())
    ensures HandleMessageEvent(botId, env, e) == [] <==> AllSpace(e.Body())
    ensures !AllSpace(e.Body()) ==>
      HandleMessageEvent(botId, env, e)[0] == Post(e.channel, e.ts, Placeholder(env.pick))
  {
  }

  /** A question whose placeholder was posted is answered with exactly two
      calls: the placeholder post, then one edit of that same message into
      the answer. A missing model or a failing model call still reaches the
      edit, with the fixed notice or apology as the text. */
  lemma QuestionsAreAnsweredInTwoSteps(botId: BotId, env: Env, e: Event, handle: string)
    requires Classify(botId, e) in {ThreadReply, NewMessage}
    requires env.post == Posted(handle)
    ensures var t := HandleMessageEvent(botId, env, e);
      var query := if e.InThread() then ThreadQuery(botId, e) else MessageQuery(e);
      var target := if e.InThread() then e.threadTs else e.ts;
      && (query == [] <==> t == [])
      && (query != [] ==>
            && |t| == 2
            && t[0] == Post(e.channel, target, Placeholder(env.pick))
            && t[1].Update? && t[1].channel == e.channel && t[1].handle == handle
            && (!env.modelReady ==> t[1].text == ModelNotReady)
            && (env.modelReady && env.generate(query).GenFailed? ==> t[1].text == GenerationFallback)
            && (env.modelReady && env.generate(query).Generated? ==> t[1].text == env.generate(query).text))
  {
  }

  /** A posted book request ends with one edit: the warning exactly when the
      message held no usable book, the confirmation exactly when the sheet
      was opened and the row appended. */
  lemma BookRequestOutcome(botId: BotId, env: Env, e: Event, handle: string)
    requires Classify(botId, e) == BookRequest
    requires env.post == Posted(handle)
    ensures var t := HandleMessageEvent(botId, env, e);
      var found := ExtractBookInfo(env.modelReady, env.extract(e.Body()));
      var last := t[|t| - 1];
      && last.Update? && last.handle == handle
      && (last.text == BookNotFound <==> found.None?)
      && (Recorded <= last.text <==>
            && found.Some? && env.sheetReady && env.openSheet.Opened?
            && env.append(SheetRow(found.value, RequesterName(env.lookup(e.user), e.user), env.now)) == Appended)
  {
    var t := HandleMessageEvent(botId, env, e);
    var found := ExtractBookInfo(env.modelReady, env.extract(e.Body()));
    if found.Some? {
      var info := found.value;
      var name := RequesterName(env.lookup(e.user), e.user);
      var o := AddBookToSheet(env, info, name);
      var r := ReplyText(info, name, o);
      assert t[|t| - 1].text == r;
      assert r != BookNotFound by {
        if o.success {
          assert r[0] == CheckMark[0] && BookNotFound[0] == WarningSign[0];
        } else {
          var k := |WarningSign|;
          assert r[k] == SheetProblem[k] == '구';
          assert BookNotFound[k] == '메';
        }
      }
    } else {
      assert !(Recorded <= BookNotFound) by {
        assert Recorded[0] == CheckMark[0] && BookNotFound[0] == WarningSign[0];
      }
    }
  }

  /** An accepted book always fills the title or the author column of its
      row with a non-empty string. */
  lemma AcceptedBookRowNamesTheBook(modelReady: bool, parsed: Option<Dict>, name: Option<string>, now: string)
    requires ExtractBookInfo(modelReady, parsed).Some?
    ensures var row := SheetRow(ExtractBookInfo(modelReady, parsed).value, name, now);
      Truthy(row[0]) || Truthy(row[1])
  {
  }
}

=== FILE: effects.dfy ===
/**
 The outside world as one event's handling sees it. Every Slack, Gemini and
 Google Sheets call is an oracle whose answer is fixed in advance, and what
 the handlers do is recorded as a trace of outbound effects.
 */
module Effects {
  import opened Py

  /** One sheet row, cell by cell; `None` is a Python `None` cell. */
  type Row = seq<Option<string>>

  /** An outbound call that changes something the user can see. */
  datatype Effect =
    | Post(channel: Option<string>, threadTs: Option<string>, text: string)  // `say(text=..., thread_ts=...)` in the event's channel
    | Update(channel: Option<string>, handle: string, text: string)          // `chat_update(channel=..., ts=..., text=...)`
    | AppendRow(row: Row)                                                    // `sheet.append_row(row)`

  /** What `say` returns: the posted message's `ts`, or an exception. */
  datatype PostResult = Posted(handle: string) | PostFailed

  /** What `generate_content(...).text` gives: the text, or an exception. */
  datatype GenResult = Generated(text: string) | GenFailed

  /** What `users_info(user=...)["user"]["profile"]` gives. */
  datatype LookupResult = Profile(fields: Dict) | LookupFailed

  /** What `open_by_key(...).sheet1` gives: the worksheet, or an exception
      whose text is kept. */
  datatype OpenResult = Opened | OpenFailed(message: string)

  /** What `append_row` gives: done, or an exception whose text is kept. */
  datatype AppendResult = Appended | AppendFailed(message: string)

  /** The process state fixed at startup and the answers of every external
      call made while handling one event. Each handler makes each call at most
      once, so one answer per call is enough. */
  datatype Env = Env(
    modelReady: bool,                      // the Gemini model was configured
    sheetReady: bool,                      // the Google Sheets client was authorised
    post: PostResult,                      // the one `say` of the handler
    generate: string -> GenResult,         // Gemini answering a question
    extract: string -> Option<Dict>,       // Gemini + JSON parsing of a book request; None when no JSON object came back or a call failed
    lookup: Option<string> -> LookupResult,// Slack profile of a user id
    openSheet: OpenResult,                 // opening the request sheet by its key
    append: Row -> AppendResult,           // writing a row to the opened sheet
    pick: nat,                             // the choice `random.choice` makes
    now: string)                           // `datetime.now()` formatted as `%Y-%m-%d %H:%M:%S`

  function CountPosts(t: seq<Effect>): (n: nat)
    ensures n <= |t|
  {
    if t == [] then 0 else (if t[0].Post? then 1 else 0) + CountPosts(t[1..])
  }

  function CountUpdates(t: seq<Effect>): (n: nat)
    ensures n <= |t|
  {
    if t == [] then 0 else (if t[0].Update? then 1 else 0) + CountUpdates(t[1..])
  }

  /** The acknowledge-then-replace protocol for a handler that posts: the
      placeholder is the first and only post; if posting threw, nothing
      follows it; otherwise the last effect, and the only edit, rewrites that
      very message in the same channel. */
  predicate AckThenReplace(t: seq<Effect>, post: PostResult)
  {
    && |t| >= 1
    && t[0].Post?
    && CountPosts(t) == 1
    && (post.PostFailed? ==> t == [t[0]])
    && (post.Posted? ==>
          && CountUpdates(t) == 1
          && t[|t| - 1].Update?
          && t[|t| - 1].handle == post.handle
          && t[|t| - 1].channel == t[0].channel)
  }

  lemma {:induction false} CountsOfConcat(a: seq<Effect>, b: seq<Effect>)
    ensures CountPosts(a + b) == CountPosts(a) + CountPosts(b)
    ensures CountUpdates(a + b) == CountUpdates(a) + CountUpdates(b)
  {
    if a != [] {
      CountsOfConcat(a[1..], b);
      assert (a + b)[1..] == a[1..] + b;
    } else {
      assert a + b == b;
    }
  }
}

=== FILE: py.dfy ===
/**
 The few Python value conventions the bot's code leans on: a value that is
 either a `str` or `None`, truthiness of such a value, how an f-string renders
 it, and `dict.get` with a default.
 */
module Py {

  /** `Some(s)` is the Python string `s`; `None` is Python's `None`
      (a missing event field reads as `None` too, as `dict.get` returns it). */
  datatype Option<+T> = None | Some(value: T)

  /** A JSON object or a Slack payload whose values are strings or null. */
  type Dict = map<string, Option<string>>

  /** Python truthiness of a `str | None`: `None` and `""` are false. */
  predicate Truthy(v: Option<string>)
  {
    v.Some? && v.value != ""
  }

  /** What `f"{v}"` produces: `None` prints as the four letters "None". */
  function Render(v: Option<string>): (r: string)
    ensures v.Some? ==> r == v.value
    ensures v.None? ==> r == "None"
  {
    match v
    case None => "None"
    case Some(s) => s
  }

  /** `d.get(key, default)`: the default is used only when the key is absent,
      never when the key holds null or an empty string. */
  function Get(d: Dict, key: string, default: Option<string>): (r: Option<string>)
    ensures key in d ==> r == d[key]
    ensures key !in d ==> r == default
  {
    if key in d then d[key] else default
  }
}

=== FILE: routing.dfy ===
/**
 The `message` event listener's routing decision: which of the bot's
 handlers, if any, an inbound Slack message event is given to.
 */
module Routing {
  import opened Py
  import opened Text

  /** The fields of a Slack `message` event the bot reads. Every field but
      `hasSubtype` is `None` when the key is absent. */
  datatype Event = Event(
    hasSubtype: bool,            // the event carries a `subtype` key (edits, joins, bot posts, ...)
    user: Option<string>,        // author's user id
    text: Option<string>,        // message text
    ts: Option<string>,          // the message's own timestamp
    threadTs: Option<string>,    // root timestamp of the thread it was posted in
    channel: Option<string>)
  {
    /** `event.get("text", "")` */
    function Body(): string
    {
      match text
      case None => ""
      case Some(t) => t
    }

    /** `if thread_ts:` is a truthiness test: an empty thread timestamp
        counts as no thread. */
    predicate InThread()
    {
      Truthy(threadTs)
    }
  }

  /** The bot's own user id, `None` when the startup lookup failed. */
  type BotId = Option<string>

  datatype Route = Ignore | BookRequest | ThreadReply | NewMessage

  /** The two spellings of "book request" that trigger the book workflow. */
  const BookKeyword: string := "도서신청"
  const BookKeywordSpaced: string := "도서 신청"

  /** `f"<@{bot_id}>"`: the mention token, which reads `<@None>` when the bot
      id could not be fetched. */
  function Mention(botId: BotId): (m: string)
    ensures |m| >= 3 && m[..2] == "<@" && m[|m| - 1] == '>'
    ensures botId.Some? ==> m[2..|m| - 1] == botId.value
    ensures botId.None? ==> m == "<@None>"
  {
    "<@" + Render(botId) + ">"
  }

  /** Events the bot never handles: anything with a subtype, and the bot's
      own messages (only checked when the bot id is known and non-empty). */
  predicate FromSelfOrSystem(botId: BotId, e: Event)
  {
    e.hasSubtype || (Truthy(botId) && e.user == botId)
  }

  predicate AsksForBook(text: string)
  {
    Contains(text, BookKeyword) || Contains(text, BookKeywordSpaced)
  }

  predicate MentionsBot(botId: BotId, e: Event)
  {
    Contains(e.Body(), Mention(botId))
  }

  /** The listener's decision, in the order the rules are tried: system and
      own messages are dropped; a top-level message asking for a book goes to
      the book workflow; a thread message is answered only when it mentions
      the bot; any other top-level message is answered. Each route is stated
      here as a condition on the event alone, independent of rule order. */
  function Classify(botId: BotId, e: Event): (r: Route)
    ensures r == Ignore <==>
      FromSelfOrSystem(botId, e) || (e.InThread() && !MentionsBot(botId, e))
    ensures r == BookRequest <==>
      !FromSelfOrSystem(botId, e) && !e.InThread() && AsksForBook(e.Body())
    ensures r == ThreadReply <==>
      !FromSelfOrSystem(botId, e) && e.InThread() && MentionsBot(botId, e)
    ensures r == NewMessage <==>
      !FromSelfOrSystem(botId, e) && !e.InThread() && !AsksForBook(e.Body())
  {
    if FromSelfOrSystem(botId, e) then Ignore
    else if !e.InThread() && AsksForBook(e.Body()) then BookRequest
    else if e.InThread() then
      if MentionsBot(botId, e) then ThreadReply else Ignore
    else NewMessage
  }
}

=== FILE: text.dfy ===
/**
 The string operations the dispatcher applies to message text: Python's
 `in` on strings, `str.strip()`, and `re.sub(token, "", s)` for a literal,
 non-empty token. Each is given an independent characterisation so that the
 recursive definitions can be checked against it.
 */
module Text {

  /** Python's `str.isspace()` for one character: the ASCII controls
      TAB..CR and FS..US, space, NEL, NBSP, and the Unicode space separators
      and line/paragraph separators. */
  predicate IsSpace(c: char)
  {
    || ('\t' <= c <= '\r')
    || ('\U{1C}' <= c <= '\U{1F}')
    || c == ' '
    || c == '\U{85}'
    || c == '\U{A0}'
    || c == '\U{1680}'
    || ('\U{2000}' <= c <= '\U{200A}')
    || c == '\U{2028}'
    || c == '\U{2029}'
    || c == '\U{202F}'
    || c == '\U{205F}'
    || c == '\U{3000}'
  }

  predicate AllSpace(s: string)
  {
    forall i :: 0 <= i < |s| ==> IsSpace(s[i])
  }

  /** Neither end of `s` is whitespace. */
  predicate Trimmed(s: string)
  {
    s == [] || (!IsSpace(s[0]) && !IsSpace(s[|s| - 1]))
  }

  // ---------------------------------------------------------------------
  // Substring search

  predicate OccursAt(s: string, p: string, i: nat)
  {
    i + |p| <= |s| && s[i..i + |p|] == p
  }

  /** Python's `p in s`. */
  predicate Contains(s: string, p: string)
  {
    exists i: nat | i <= |s| :: OccursAt(s, p, i)
  }

  lemma OccursAtShift(c: char, s: string, p: string, i: nat)
    ensures OccursAt([c] + s, p, i + 1) <==> OccursAt(s, p, i)
  {
    if i + |p| <= |s| {
      assert ([c] + s)[i + 1..i + 1 + |p|] == s[i..i + |p|];
    }
  }

  /** An occurrence in `s` is an occurrence in `[c] + s` one place later. */
  lemma ContainsCons(c: char, s: string, p: string)
    requires Contains(s, p)
    ensures Contains([c] + s, p)
  {
    var i: nat :| i <= |s| && OccursAt(s, p, i);
    OccursAtShift(c, s, p, i);
  }

  /** When `p` is not a prefix, every occurrence in `[c] + s` lies in `s`. */
  lemma ContainsUncons(c: char, s: string, p: string)
    ensures Contains([c] + s, p) && !(p <= [c] + s) ==> Contains(s, p)
  {
    if Contains([c] + s, p) && !(p <= [c] + s) {
      var i: nat :| i <= |[c] + s| && OccursAt([c] + s, p, i);
      assert i != 0;
      OccursAtShift(c, s, p, i - 1);
    }
  }

  // ---------------------------------------------------------------------
  // str.strip()

  /** The number of whitespace characters `s` starts with. */
  function LeadingSpaces(s: string): (n: nat)
    ensures n <= |s| && AllSpace(s[..n])
    ensures n < |s| ==> !IsSpace(s[n])
    decreases |s|
  {
    if s != [] && IsSpace(s[0]) then
      var m := LeadingSpaces(s[1..]);
      assert s[..m + 1] == [s[0]] + s[1..][..m];
      AllSpaceConcat([s[0]], s[1..][..m]);
      m + 1
    else
      assert s[..0] == [];
      0
  }

  /** The number of whitespace characters `s` ends with. */
  function TrailingSpaces(s: string): (n: nat)
    ensures n <= |s| && AllSpace(s[|s| - n..])
    ensures n < |s| ==> !IsSpace(s[|s| - n - 1])
    decreases |s|
  {
    if s != [] && IsSpace(s[|s| - 1]) then
      var t := s[..|s| - 1];
      var m := TrailingSpaces(t);
      assert t[|t| - m..] == s[|s| - 1 - m..|s| - 1];
      assert s[|s| - (m + 1)..] == s[|s| - 1 - m..|s| - 1] + [s[|s| - 1]];
      AllSpaceConcat(t[|t| - m..], [s[|s| - 1]]);
      m + 1
    else
      assert s[|s|..] == [];
      0
  }

  /** `str.lstrip()`: drop leading whitespace. */
  function LStrip(s: string): (r: string)
    ensures |r| <= |s| && r == s[|s| - |r|..]
    ensures AllSpace(s[..|s| - |r|])
    ensures r == [] || !IsSpace(r[0])
  {
    s[LeadingSpaces(s)..]
  }

  /** `str.rstrip()`: drop trailing whitespace. */
  function RStrip(s: string): (r: string)
    ensures |r| <= |s| && r == s[..|r|]
    ensures AllSpace(s[|r|..])
    ensures r == [] || !IsSpace(r[|r| - 1])
  {
    s[..|s| - TrailingSpaces(s)]
  }

  lemma AllSpaceConcat(a: string, b: string)
    ensures AllSpace(a + b) <==> AllSpace(a) && AllSpace(b)
  {
    if AllSpace(a + b) {
      forall k | 0 <= k < |a| ensures IsSpace(a[k]) {
        assert (a + b)[k] == a[k];
      }
      forall k | 0 <= k < |b| ensures IsSpace(b[k]) {
        assert (a + b)[|a| + k] == b[k];
      }
    }
  }

  /** `s` is `r` with some whitespace added at both ends. */
  predicate PaddedAt(s: string, r: string, i: nat)
  {
    && i + |r| <= |s|
    && s[i..i + |r|] == r
    && AllSpace(s[..i])
    && AllSpace(s[i + |r|..])
  }

  /** `str.strip()`: the whitespace-free core of `s`, which is empty exactly
      when `s` is all whitespace. */
  function Strip(s: string): (r: string)
    ensures Trimmed(r)
    ensures |r| <= |s|
    ensures exists i: nat | i <= |s| :: PaddedAt(s, r, i)
    ensures r == [] <==> AllSpace(s)
  {
    var l := LStrip(s);
    var r := RStrip(l);
    StripFacts(s, l, r, |s| - |l|);
    r
  }

  /** A left-stripped suffix `l` of `s`, right-stripped to `r`, is `s`
      without its padding. */
  lemma StripFacts(s: string, l: string, r: string, i: nat)
    requires i <= |s| && l == s[i..] && AllSpace(s[..i]) && (l == [] || !IsSpace(l[0]))
    requires |r| <= |l| && r == l[..|r|] && AllSpace(l[|r|..]) && (r == [] || !IsSpace(r[|r| - 1]))
    ensures PaddedAt(s, r, i) && Trimmed(r)
    ensures r == [] <==> AllSpace(s)
  {
    assert s[i..][..|r|] == s[i..i + |r|] && s[i..][|r|..] == s[i + |r|..];
    if r == [] {
      assert s == s[..i] + l;
      AllSpaceConcat(s[..i], l);
    } else {
      assert r[0] == l[0] == s[i];
    }
  }

  /** `s[i]` is the first character of `s` that is not whitespace. */
  predicate FirstNonSpaceAt(s: string, i: nat)
  {
    i < |s| && !IsSpace(s[i]) && forall k :: 0 <= k < i ==> IsSpace(s[k])
  }

  /** `s[e - 1]` is the last character of `s` that is not whitespace. */
  predicate LastNonSpaceBefore(s: string, e: nat)
  {
    0 < e <= |s| && !IsSpace(s[e - 1]) && forall k :: e <= k < |s| ==> IsSpace(s[k])
  }

  /** A trimmed, non-empty string padded with whitespace starts at the first
      and ends at the last non-whitespace character. */
  lemma PaddedBounds(s: string, r: string, i: nat)
    requires r != [] && Trimmed(r)
    requires PaddedAt(s, r, i)
    ensures FirstNonSpaceAt(s, i) && LastNonSpaceBefore(s, i + |r|)
  {
    assert s[i] == s[i..i + |r|][0];
    assert s[i + |r| - 1] == s[i..i + |r|][|r| - 1];
    SpaceBefore(s, i);
    SpaceFrom(s, i + |r|);
  }

  /** `Strip` is the only trimmed, non-empty string that pads out to `s`:
      the two ends of the padding are determined by the first and last
      non-whitespace characters. */
  lemma {:induction false} StripUnique(s: string, r: string, i: nat)
    requires r != [] && Trimmed(r)
    requires PaddedAt(s, r, i)
    ensures Strip(s) == r
  {
    PaddedBounds(s, r, i);
    var t := Strip(s);
    assert !AllSpace(s);
    var j: nat :| j <= |s| && PaddedAt(s, t, j);
    PaddedBounds(s, t, j);
    assert i == j;
    assert i + |r| == j + |t|;
  }

  lemma SpaceBefore(s: string, i: nat)
    requires i <= |s| && AllSpace(s[..i])
    ensures forall k :: 0 <= k < i ==> IsSpace(s[k])
  {
    forall k | 0 <= k < i
      ensures IsSpace(s[k])
    {
      assert s[..i][k] == s[k];
    }
  }

  lemma SpaceFrom(s: string, i: nat)
    requires i <= |s| && AllSpace(s[i..])
    ensures forall k :: i <= k < |s| ==> IsSpace(s[k])
  {
    forall k | i <= k < |s|
      ensures IsSpace(s[k])
    {
      assert s[i..][k - i] == s[k];
    }
  }

  lemma StripIdempotent(s: string)
    ensures Strip(Strip(s)) == Strip(s)
  {
    var t := Strip(s);
    if t != [] {
      assert PaddedAt(t, t, 0) by {
        assert t[..0] == [] && t[|t|..] == [];
        assert t[0..|t|] == t;
      }
      StripUnique(t, t, 0);
    }
  }

  // ---------------------------------------------------------------------
  // re.sub(token, "", s) for a literal token, and its reference definition
  // by splitting at the token

  /** `re.sub(p, "", s)` for a literal, non-empty pattern: scan left to
      right, dropping each match and resuming right after it. */
  function RemoveAll(s: string, p: string): (r: string)
    requires p != []
    ensures |r| <= |s|
    decreases |s|
  {
    if s == [] then []
    else if p <= s then RemoveAll(s[|p|..], p)
    else [s[0]] + RemoveAll(s[1..], p)
  }

  /** Text without the token is left as it is. */
  lemma {:induction false} RemoveAllWithoutToken(s: string, p: string)
    requires p != [] && !Contains(s, p)
    ensures RemoveAll(s, p) == s
    decreases |s|
  {
    if s != [] {
      assert !(p <= s) by {
        if p <= s {
          assert OccursAt(s, p, 0);
        }
      }
      assert !Contains(s[1..], p) by {
        assert s == [s[0]] + s[1..];
        if Contains(s[1..], p) {
          ContainsCons(s[0], s[1..], p);
        }
      }
      RemoveAllWithoutToken(s[1..], p);
    }
  }

  /** `s.split(p)`: the pieces between leftmost, non-overlapping matches. */
  function Split(s: string, p: string): (pieces: seq<string>)
    requires p != []
    ensures |pieces| >= 1
    ensures pieces[0] <= s
    decreases |s|
  {
    if s == [] then [[]]
    else if p <= s then [[]] + Split(s[|p|..], p)
    else
      var rest := Split(s[1..], p);
      [[s[0]] + rest[0]] + rest[1..]
  }

  /** `p.join(pieces)`. */
  function Join(p: string, pieces: seq<string>): string
    requires |pieces| >= 1
  {
    if |pieces| == 1 then pieces[0] else pieces[0] + p + Join(p, pieces[1..])
  }

  /** `"".join(pieces)`. */
  function Concat(pieces: seq<string>): string
  {
    if pieces == [] then [] else pieces[0] + Concat(pieces[1..])
  }

  /** Prepending a character to the first piece prepends it to the join. */
  lemma JoinCons(c: char, p: string, pieces: seq<string>)
    requires |pieces| >= 1
    ensures Join(p, [[c] + pieces[0]] + pieces[1..]) == [c] + Join(p, pieces)
  {
    var longer := [[c] + pieces[0]] + pieces[1..];
    assert longer[1..] == pieces[1..];
  }

  /** One step of `Join(Split(...))` where the text starts with the token. */
  lemma JoinSplitAtToken(s: string, p: string)
    requires p != [] && p <= s
    ensures Join(p, Split(s, p)) == p + Join(p, Split(s[|p|..], p))
  {
    var rest := Split(s[|p|..], p);
    var pieces := Split(s, p);
    assert pieces == [[]] + rest;
    assert pieces[0] == [] && pieces[1..] == rest;
    calc {
      Join(p, pieces);
      pieces[0] + p + Join(p, pieces[1..]);
      [] + p + Join(p, rest);
      { assert [] + p == p; }
      p + Join(p, rest);
    }
  }

  /** One step of `Join(Split(...))` where the text does not start with the
      token. */
  lemma JoinSplitPastChar(s: string, p: string)
    requires p != [] && s != [] && !(p <= s)
    ensures Join(p, Split(s, p)) == [s[0]] + Join(p, Split(s[1..], p))
  {
    var rest := Split(s[1..], p);
    assert Split(s, p) == [[s[0]] + rest[0]] + rest[1..];
    JoinCons(s[0], p, rest);
  }

  /** Splitting at the token and joining back with it gives the text back. */
  lemma {:induction false} JoinSplit(s: string, p: string)
    requires p != []
    ensures Join(p, Split(s, p)) == s
    decreases |s|
  {
    if s == [] {
    } else if p <= s {
      JoinSplitAtToken(s, p);
      JoinSplit(s[|p|..], p);
      assert s == p + s[|p|..];
    } else {
      JoinSplitPastChar(s, p);
      JoinSplit(s[1..], p);
      assert s == [s[0]] + s[1..];
    }
  }

  lemma ConcatSplitPastChar(s: string, p: string)
    requires p != [] && s != [] && !(p <= s)
    ensures Concat(Split(s, p)) == [s[0]] + Concat(Split(s[1..], p))
  {
    var rest := Split(s[1..], p);
    var pieces := Split(s, p);
    assert pieces == [[s[0]] + rest[0]] + rest[1..];
    assert pieces[1..] == rest[1..];
    calc {
      Concat(pieces);
      ([s[0]] + rest[0]) + Concat(rest[1..]);
      [s[0]] + (rest[0] + Concat(rest[1..]));
      [s[0]] + Concat(rest);
    }
  }

  /** Removing every match is the same as concatenating the split pieces. */
  lemma {:induction false} RemoveAllIsConcatOfSplit(s: string, p: string)
    requires p != []
    ensures RemoveAll(s, p) == Concat(Split(s, p))
    decreases |s|
  {
    if s == [] {
    } else if p <= s {
      RemoveAllIsConcatOfSplit(s[|p|..], p);
      var rest := Split(s[|p|..], p);
      assert Split(s, p) == [[]] + rest;
      assert Split(s, p)[1..] == rest;
    } else {
      RemoveAllIsConcatOfSplit(s[1..], p);
      ConcatSplitPastChar(s, p);
    }
  }

  /** An occurrence past the first character is an occurrence in the tail. */
  lemma OccursInTail(s: string, p: string, i: nat)
    requires s != []
    ensures OccursAt(s, p, i + 1) <==> OccursAt(s[1..], p, i)
  {
    assert s == [s[0]] + s[1..];
    OccursAtShift(s[0], s[1..], p, i);
  }

  /** When the text does not start with the token, it contains the token
      exactly when its tail does. */
  lemma ContainsPastChar(s: string, p: string)
    requires s != [] && !(p <= s)
    ensures Contains(s, p) <==> Contains(s[1..], p)
  {
    assert s == [s[0]] + s[1..];
    ContainsUncons(s[0], s[1..], p);
    if Contains(s[1..], p) {
      ContainsCons(s[0], s[1..], p);
    }
  }

  /** The shape of a split whose text does not start with the token: the
      first character joins the tail's first piece. */
  lemma SplitPastChar(s: string, p: string)
    requires p != [] && s != [] && !(p <= s)
    ensures Split(s, p)[0] == [s[0]] + Split(s[1..], p)[0]
    ensures Split(s, p)[1..] == Split(s[1..], p)[1..]
  {
  }

  /** No match of the token starts inside the first piece. */
  lemma {:induction false} SplitNoEarlierMatch(s: string, p: string)
    requires p != []
    ensures forall i: nat | i < |Split(s, p)[0]| :: !OccursAt(s, p, i)
    decreases |s|
  {
    if s != [] && !(p <= s) {
      SplitNoEarlierMatch(s[1..], p);
      SplitPastChar(s, p);
      forall i: nat | i < |Split(s, p)[0]|
        ensures !OccursAt(s, p, i)
      {
        if i == 0 {
          assert |p| <= |s| ==> s[..|p|] == s[0..|p|];
        } else {
          OccursInTail(s, p, i - 1);
        }
      }
    }
  }

  /** Text without the token splits into itself alone. */
  lemma {:induction false} SplitWithoutMatch(s: string, p: string)
    requires p != [] && !Contains(s, p)
    ensures Split(s, p) == [s]
    decreases |s|
  {
    if s == [] {
    } else if p <= s {
      assert OccursAt(s, p, 0);
    } else {
      ContainsPastChar(s, p);
      SplitWithoutMatch(s[1..], p);
      SplitPastChar(s, p);
      assert s == [s[0]] + s[1..];
    }
  }

  /** The shape of a split whose text starts with the token: an empty first
      piece, then the split of what follows the token. */
  lemma SplitAtToken(s: string, p: string)
    requires p != [] && p <= s
    ensures Split(s, p)[0] == [] && OccursAt(s, p, 0)
    ensures Split(s, p)[1..] == Split(s[|p|..], p)
  {
    assert Split(s, p) == [[]] + Split(s[|p|..], p);
  }

  /** Past a character that does not start a match, the match after the
      tail's first piece is the match after the text's first piece. */
  lemma MatchAfterFirstPiecePastChar(s: string, p: string)
    requires p != [] && s != [] && !(p <= s)
    requires OccursAt(s[1..], p, |Split(s[1..], p)[0]|)
    ensures OccursAt(s, p, |Split(s, p)[0]|)
  {
    SplitPastChar(s, p);
    OccursInTail(s, p, |Split(s[1..], p)[0]|);
  }

  /** In text with the token, a match starts right after the first piece. */
  lemma {:induction false} SplitAtLeftmostMatch(s: string, p: string)
    requires p != []
    ensures Contains(s, p) ==> OccursAt(s, p, |Split(s, p)[0]|)
    decreases |s|
  {
    if s == [] {
      assert !Contains([], p);
    } else if p <= s {
      SplitAtToken(s, p);
    } else {
      ContainsPastChar(s, p);
      if Contains(s, p) {
        SplitAtLeftmostMatch(s[1..], p);
        MatchAfterFirstPiecePastChar(s, p);
      }
    }
  }

  /** The first piece of a split ends at the leftmost match: no match starts
      inside it, and one starts right after it when the text has any. Without
      a match the text is a single piece. */
  lemma SplitFirstPieceIsLeftmost(s: string, p: string)
    requires p != []
    ensures forall i: nat | i < |Split(s, p)[0]| :: !OccursAt(s, p, i)
    ensures Contains(s, p) ==> OccursAt(s, p, |Split(s, p)[0]|)
    ensures !Contains(s, p) ==> Split(s, p) == [s]
  {
    SplitNoEarlierMatch(s, p);
    SplitAtLeftmostMatch(s, p);
    if !Contains(s, p) {
      SplitWithoutMatch(s, p);
    }
  }


  /** No piece of a split contains the token: a match inside a piece would
      have been found first. */
  lemma {:induction false} SplitPiecesFree(s: string, p: string)
    requires p != []
    ensures forall k :: 0 <= k < |Split(s, p)| ==> !Contains(Split(s, p)[k], p)
    decreases |s|
  {
    var pieces := Split(s, p);
    if s == [] {
      assert !Contains([], p);
    } else if p <= s {
      SplitPiecesFree(s[|p|..], p);
      assert !Contains([], p);
      assert pieces[1..] == Split(s[|p|..], p);
      forall k | 0 < k < |pieces|
        ensures !Contains(pieces[k], p)
      {
        assert pieces[k] == Split(s[|p|..], p)[k - 1];
      }
    } else {
      var rest := Split(s[1..], p);
      SplitPiecesFree(s[1..], p);
      assert !Contains(rest[0], p);
      var head := [s[0]] + rest[0];
      assert head <= s by {
        assert s == [s[0]] + s[1..];
      }
      assert !(p <= head);
      ContainsUncons(s[0], rest[0], p);
      forall k | 0 < k < |pieces|
        ensures !Contains(pieces[k], p)
      {
        assert pieces[k] == rest[k];
      }
    }
  }

  /** A removal is not a fixpoint: the text around a removed match can meet
      to form a new one. The cleaned text can therefore still mention the bot. */
  lemma RemoveAllCanLeaveToken()
    ensures Contains(RemoveAll("<@<@U1>U1>", "<@U1>"), "<@U1>")
  {
    var m := "<@U1>";
    assert RemoveAll(">", m) == ">";
    assert RemoveAll("1>", m) == "1>";
    assert RemoveAll("U1>", m) == "U1>";
    assert RemoveAll("<@U1>U1>", m) == "U1>";
    assert RemoveAll("@<@U1>U1>", m) == "@U1>";
    assert RemoveAll("<@<@U1>U1>", m) == "<@U1>";
    assert OccursAt("<@U1>", "<@U1>", 0);
  }
}

